=== FILE: README.md ===
# backlight — a Dafny model

`backlight` is a small command-line utility that reports the screen
backlight level as a percentage and can set, raise or lower it. It finds the
first device under `/sys/class/backlight`, reads `max_brightness` and
`brightness`, computes the new level as a clamped ratio of the maximum,
writes it under a temporarily elevated identity when it changed, and prints
the percentage.

This project models the pure logic of `backlight.c` as Dafny functions over
strings, sequences and naturals, and proves what the program promises:

- `decimal.dfy` (module `Decimal`) — the digit scan `strtoul` performs on an
  operand made of decimal digits, and the `%lu` rendering of a written level.
- `commandline.dfy` (module `CommandLine`) — `parse_args`: the operations
  `Get | Set | Inc | Dec` with their value, and the argument error (status 1).
- `paths.dfy` (module `Paths`) — `path_concat` / `path_concat2`.
- `locator.dfy` (module `Locator`) — the entry-selection loop of
  `find_backlight_dir`, over the directory stream given as a sequence of
  `(kind, name)` entries.
- `brightness.dfy` (module `Brightness`) — the ratio/clamp arithmetic of
  `main`, in exact integer arithmetic in hundredths of `max`: the request
  N is `100*current` (Get), `val*max` (Set), `100*current + val*max` (Inc) or
  `100*current - val*max` (Dec), clamped to `[0, 100*max]`; the new level is
  `N / 100` and the printed percentage is `N / max`. A real-valued reading of
  the source's `double` computation (`Ratio`) is proved to give the same two
  numbers.
- `driver.dfy` (module `Driver`) — `main`: the write decision (no write,
  elevation failure with status 2, or a write of the new level) and the whole
  run over an environment holding the directory listing, the pseudo-file
  contents, the writable paths and whether elevation succeeds.
- `wrappers.dfy` (module `Wrappers`) — `Option` and `Result`.

Three consequences of the code are worth stating plainly:

- Setting p% and then asking again need not show p% again, even in exact
  arithmetic: on a device with maximum 255, `=50` writes 127 and shows 50%,
  and reading 127 back shows 49% (`Brightness.SetThenGetMayShowLess`). In
  exact arithmetic the second reading never exceeds p, and on devices with at
  least 100 steps it is p or p-1 (`Brightness.SetThenGetAtMost`,
  `Brightness.SetThenGetAtLeast`). The source's `double` arithmetic can lose
  one more step: on maximum 100, `=58` writes 57 and prints 57%, and a bare
  invocation after it prints 56%.
- The code does not check that the level read is at most the maximum. A level
  read above the maximum is clamped, so even a bare invocation then writes
  `max` (`Brightness.GetKeepsLevel`).
- A zero spelled with more than one digit (`=00`) is refused, while `=007`
  means 7 (`CommandLine.ZeroSpellings`).

## Model

| member | source | states |
|---|---|---|
| `Decimal.DigitPrefixLength` | backlight.c:59 | the scan stops at the first non-digit: everything before it is a digit, the character at the stop is not |
| `Decimal.ScanDecimal` | backlight.c:59 | `strtoul` on a digit operand: the end pointer stops at the first non-digit, so it reaches the end of the text exactly when the text is all digits, and the value is that of the digits consumed (0 when none) |
| `Decimal.ValueZeroIffAllZeros` | backlight.c:60 | a digit string has value 0 exactly when every digit is '0' |
| `Decimal.Format` | backlight.c:125 | `%lu` text is non-empty, all digits, denotes the value, and has no leading zero except for "0" |
| `Decimal.ScanFormatRoundTrip` | backlight.c:123-125 | scanning the written text consumes all of it and gives back the value |
| `Decimal.FormatCanonical` | backlight.c:125 | formatted text starts with '0' exactly for the value 0 |
| `CommandLine.OpOf` | backlight.c:49-57 | exactly '=', '+' and '-' select an operation, and never `Get` |
| `CommandLine.OpChar` | backlight.c:50-55 | each non-Get operation has an operator character that selects it |
| `CommandLine.ParseCommand` | backlight.c:47-62 | a word is accepted iff it is an operator, then digits only, not a multi-digit zero; the operation and value are those the word spells; a value 0 comes only from the operand "0" |
| `CommandLine.ScanTestMatchesGrammar` | backlight.c:59-62 | the source's test (value 0 without operand "0", or end pointer short of the end) rejects exactly the words that are not well formed |
| `CommandLine.ParseArgs` | backlight.c:41-70 | no argument gives `Get` with value 0; more than one argument (or none at all, not even the program name) is an argument error; with exactly one argument, it is accepted iff the word is well formed, and then the operation is the one its operator selects and the value is that of its digits |
| `CommandLine.ParseRenderRoundTrip` | backlight.c:50-62 | every `Set`/`Inc`/`Dec` request is parsed back from its canonical spelling |
| `CommandLine.RejectsUnknownOperator` | backlight.c:49-57 | a word that is empty or starts with anything but '=', '+' or '-' is refused |
| `CommandLine.RejectsNonDigit` | backlight.c:58-62 | on the digit grammar, a non-digit anywhere after the operator (trailing garbage) is refused |
| `CommandLine.ZeroSpellings` | backlight.c:60 | "=" and "=00" are refused, "=0" sets 0, "=007" sets 7, "+5x" and "abc" are refused |
| `Paths.PathConcat` | backlight.c:72-83 | the result starts with the directory and ends with the name, and holds one extra character, a '/', exactly when the directory is non-empty and does not end in '/' |
| `Paths.NameStartsComponent` | backlight.c:72-78 | what precedes the name is empty or ends in '/' |
| `Paths.JoinAssociative` | backlight.c:80-83 | joining is associative, so `base/dev/file` does not depend on grouping |
| `Locator.IsDeviceEntry` | backlight.c:100-101 | only a directory or a symbolic link can be a device entry, and "." and ".." never are |
| `Locator.FirstDevice` | backlight.c:93-105 | returns the index of an entry that is a directory or link not starting with '.', with no such entry before it, and none exactly when no entry qualifies |
| `Locator.Locate` | backlight.c:85-107 | an unopenable base directory is `BaseDirMissing`; `NoDevice` exactly when no entry qualifies; success exactly when the directory opens and some entry qualifies, and then the result is the base joined with the name of the first qualifying entry |
| `Locator.LaterEntriesIrrelevant` | backlight.c:93-105 | entries after the first device never change the choice |
| `Locator.SkipsNonDevices` | backlight.c:100-104 | leading files, other entry kinds and hidden names (including "." and "..") are skipped |
| `Locator.TypicalListing` | backlight.c:86-104 | ".", "..", then a link `intel_backlight` gives `/sys/class/backlight/intel_backlight` |
| `Brightness.Requested` | backlight.c:152-167 | the unclamped request, in hundredths of `max`: never negative except for Dec, Inc never below the current level, Dec never above it, and Set reaches the maximum exactly when p ≥ 100 |
| `Brightness.Clamp` | backlight.c:169-172 | the result lies in [0, hi], equals the input inside the range and the nearer bound outside it |
| `Brightness.Compute` | backlight.c:149-187 | for every request, even with a level above the maximum, the new level lies in [0, max] and the printed percentage in [0, 100] |
| `Brightness.GetKeepsLevel` | backlight.c:153-154 | a bare invocation keeps a level within [0, max] and pulls a larger one down to max |
| `Brightness.GetShown` | backlight.c:153-154 | a bare invocation on a valid level shows ⌊100·current/max⌋ |
| `Brightness.SetLevel` | backlight.c:156-158 | Set(p) with p ≤ 100 gives ⌊p·max/100⌋ and shows exactly p; p ≥ 100 gives max and shows 100 |
| `Brightness.SetZero` | backlight.c:156-158 | Set(0) gives 0 and shows 0 |
| `Brightness.DecreaseToZero` | backlight.c:162-172 | Dec(p) with p·max ≥ 100·current gives 0 |
| `Brightness.IncreaseToMax` | backlight.c:159-170 | Inc(p) reaching past the maximum gives max and shows 100 |
| `Brightness.StepDirection` | backlight.c:159-164 | on a valid level, Inc never lowers it and Dec never raises it |
| `Brightness.ClampUnit` | backlight.c:169-172 | the clamped ratio lies in [0, 1] and is unchanged inside it |
| `Brightness.RequestedRatio` | backlight.c:149-167 | the source's ratio before clamping: non-negative except for Dec, Inc never below `current/max`, Dec never above it, Set at least 1 exactly when p ≥ 100 |
| `Brightness.Ratio` | backlight.c:149-172 | the source's clamped ratio lies in [0, 1]; a bare invocation on a valid level keeps `current/max`; Set(p) gives p/100 up to 100 and 1 from there on |
| `Brightness.RequestedIsRatio` | backlight.c:149-167 | the source's requested ratio equals the integer request over 100·max |
| `Brightness.ClampScales` | backlight.c:169-172 | clamping the ratio to [0, 1] is clamping the integer request to [0, 100·max] |
| `Brightness.ClampedRatio` | backlight.c:149-172 | the source's clamped ratio equals the clamped integer request over 100·max |
| `Brightness.FloorOfQuotient` | backlight.c:173 | rounding a non-negative real quotient down is integer division |
| `Brightness.ComputeMatchesRatio` | backlight.c:149-187 | the integer engine gives ⌊ratio·max⌋ as the level and ⌊ratio·100⌋ as the printed percentage, the ratio being the source's clamped real ratio |
| `Brightness.GetIsFixedPoint` | backlight.c:153-176 | after any request, a bare invocation reproduces the level, so it writes nothing |
| `Brightness.SetIdempotent` | backlight.c:156-158 | Set(p) twice gives the same level and percentage both times |
| `Brightness.SetThenGetAtMost` | backlight.c:156-187 | after Set(p), p ≤ 100, a bare invocation shows at most p |
| `Brightness.SetThenGetAtLeast` | backlight.c:156-187 | on a device with at least 100 steps, that percentage is at least p-1 |
| `Brightness.SetThenGetMayShowLess` | backlight.c:173-187 | max 255: "=50" writes 127 and shows 50, and 127 read back shows 49 |
| `Brightness.IncreaseScenario` | backlight.c:159-187 | "+10" on 50 of 100 gives 60 and shows 60 |
| `Driver.DecideWrite` | backlight.c:176-186 | no write exactly when the level is unchanged; elevation failure exactly when it changed and elevation fails; otherwise a write of the new level |
| `Driver.Run` | backlight.c:141-188 | an argument error ends with status 1 and a missing device with status 3, before anything else; statuses are 0–3; the percentage is printed exactly on status 0, at most 100; a write happens only on success with elevation |
| `Driver.RunAfterLocating` | backlight.c:109-187 | once arguments parse and the device is found: a missing `max_brightness` or `brightness` ends with status 3; with a positive maximum, success prints the computed percentage, an unchanged level succeeds without writing, and a changed level whose file cannot be opened for writing ends with status 3 |
| `Driver.ArgErrorIgnoresEnvironment` | backlight.c:63-67 | a refused command line gives status 1 whatever the environment, so no file is consulted |
| `Driver.WriteIsComputedLevel` | backlight.c:176-186 | a write goes to `brightness` of the located device, carries the decimal text of the computed level, which is within [0, max] and differs from the level read |
| `Driver.WithoutElevation` | backlight.c:176-182 | without elevation nothing is written, and status 2 arises exactly when the level would change |
| `Driver.BareInvocationReadsOnly` | backlight.c:141-188 | a bare invocation on a valid level succeeds without writing and prints ⌊100·current/max⌋ |
| `Driver.ChangedLevelIsWritten` | backlight.c:176-187 | a run that changes the level with elevation and a writable file ends with status 0, prints the percentage and writes the level |
| `Driver.IncreaseByTen` | backlight.c:141-188 | "+10" at 50 of 100 writes "60" and prints 60 |
| `Driver.SetHalf` | backlight.c:141-188 | "=50" at 0 of 255 writes "127" and prints 50 |
| `Driver.MissingBaseDirectory` | backlight.c:88-92 | an unopenable base directory ends with status 3 and nothing else |

## Left out

- CommandLine.ParseCommand: the operand grammar is decimal digits only; the leading white space, the embedded sign (`=-5` wrapping to a huge value, `=+5` meaning 5) and the saturation at `ULONG_MAX` that `strtoul` also performs are not modelled, and the value is an unbounded natural.
- Brightness.Compute: exact arithmetic replaces the source's `double` computation; the rounding artefacts of the floating-point version are not captured. Each of the two truncating conversions can land one below the exact value: `(current/max)*max` can truncate to `current-1`, so a bare invocation can write, and `ratio*100.0` can truncate to p-1, so `=29`, `=57` and `=58` print 28%, 56% and 57% on every device, where `Brightness.SetLevel` shows p.
- Brightness.Compute: a maximum of 0 is excluded by its precondition, and `Driver.Run` returns `Unspecified` for it. Under IEEE 754 the source's outcome is partly determined: with a current level above 0 the ratio is +∞, clamped to 1.0, so the run writes 0 and prints 100%, and Set does not depend on the ratio at all; only Get, Inc and Dec at a current level of 0 produce NaN, whose conversion to an integer is undefined behaviour in C. The model does not distinguish these cases.
- File I/O (`opendir`/`readdir`, `open`/`read`/`write`, `read_file_ulong`, `write_file_ulong`): the environment supplies the listing, the pseudo-file values already converted by `atol`, and which paths can be opened for writing; the `assert`s on byte counts are not modelled.
- Identity switching (`getuid`/`setuid`): modelled as a flag saying whether elevation succeeds; the unchecked restore after the write, and the identity left elevated when the write cannot be opened, are not modelled.
- Messages on the error stream and the usage text (`print_help`): a run records only its exit status, the percentage printed on success and the write performed.
- The fixed-size `PATH_MAX` buffers and any overflow of them: paths are unbounded strings, and `path_concat2` is the same join as `path_concat`.
- Concurrent invocations and changes to the pseudo-files during a run.

=== FILE: brightness.dfy ===
/**
 The ratio/clamp engine of `main`. The source works with a `double` ratio
 `current / max`; this model keeps the same quantities exactly, as integers in
 hundredths of `max`: a ratio ρ is represented by N = 100 * max * ρ. `Ratio`
 below is the real-valued reading of the source, and `ComputeMatchesRatio`
 shows the two agree.
 */
module Brightness {
  import opened CommandLine

  /** The new raw value written to the device and the percentage printed. */
  datatype Level = Level(raw: nat, shown: nat)

  /** The requested ratio scaled by 100 * max, before clamping. */
  function Requested(a: Args, current: nat, max: nat): (n: int)
    ensures a.op != Dec ==> n >= 0
    ensures a.op == Inc ==> n >= 100 * current
    ensures a.op == Dec ==> n <= 100 * current
    ensures a.op == Set && max > 0 ==> (n >= 100 * max <==> a.val >= 100)
  {
    match a.op
    case Get => 100 * current
    case Set => SaturatesFromHundred(a.val, max); a.val * max
    case Inc => 100 * current + a.val * max
    case Dec => 100 * current - a.val * max
  }

  /** Clamps `n` into [0, hi]. */
  function Clamp(n: int, hi: nat): (r: nat)
    ensures r <= hi
    ensures 0 <= n <= hi ==> r == n
    ensures n < 0 ==> r == 0
    ensures n > hi ==> r == hi
  {
    if n > hi then hi else if n < 0 then 0 else n
  }

  /** New raw brightness and displayed percentage for request `a` when the
      device reports `current` out of `max`. The raw value is the clamped ratio
      times `max`, rounded down; the percentage is the clamped ratio times
      100, rounded down (not derived from the raw value). Both stay in range
      whatever the request, even for a current value above `max`. */
  function Compute(a: Args, current: nat, max: nat): (l: Level)
    requires max > 0
    ensures l.raw <= max && l.shown <= 100
  {
    LevelOf(Clamp(Requested(a, current, max), 100 * max), max)
  }

  /** The level for a clamped request `n` in hundredths of `max`. */
  function LevelOf(n: nat, max: nat): (l: Level)
    requires max > 0 && n <= 100 * max
    ensures l.raw <= max && l.shown <= 100
  {
    DivBounds(n, max);
    Level(n / 100, n / max)
  }

  // ---------------------------------------------------------------------
  // Division facts

  /** Quotient and remainder are determined by any decomposition x = q*d + r. */
  lemma DivUnique(x: int, d: int, q: int, r: int)
    requires d > 0 && 0 <= r < d && x == q * d + r
    ensures x / d == q && x % d == r
  {
    var q0 := x / d;
    var r0 := x % d;
    assert (q - q0) * d == r0 - r;
    MulBound(q - q0, d);
  }

  /** A non-zero multiple of d is at least d away from 0. */
  lemma MulBound(k: int, d: int)
    requires d > 0
    ensures k >= 1 ==> k * d >= d
    ensures k <= -1 ==> k * d <= -d
  {
    if k >= 1 {
      assert k * d == (k - 1) * d + d;
      assert (k - 1) * d >= 0;
    } else if k <= -1 {
      assert k * d == (k + 1) * d - d;
      assert (k + 1) * d <= 0;
    }
  }

  lemma DivMonotone(x: int, y: int, d: int)
    requires 0 <= x <= y && d > 0
    ensures x / d <= y / d
  {
    var qx := x / d;
    var qy := y / d;
    assert (qx - qy) * d == x - y + y % d - x % d;
    MulBound(qx - qy, d);
  }

  lemma MulLeq(x: nat, y: nat, m: nat)
    requires x <= y
    ensures x * m <= y * m
  {
    assert y * m == x * m + (y - x) * m;
  }

  /** A percentage v scaled by `max` reaches 100·max exactly when v ≥ 100. */
  lemma SaturatesFromHundred(v: nat, max: nat)
    ensures max > 0 ==> (v * max >= 100 * max <==> v >= 100)
  {
    if v >= 100 {
      MulLeq(100, v, max);
    } else {
      MulLeq(v, 99, max);
      assert 100 * max == 99 * max + max;
    }
  }

  /** Scaling facts `Compute` needs about its two divisions. */
  lemma DivBounds(n: nat, max: nat)
    requires max > 0 && n <= 100 * max
    ensures n / 100 <= max && n / max <= 100
    ensures n == 100 * max ==> n / 100 == max && n / max == 100
  {
    DivUnique(100 * max, 100, max, 0);
    DivUnique(100 * max, max, 100, 0);
    DivMonotone(n, 100 * max, 100);
    DivMonotone(n, 100 * max, max);
  }

  // ---------------------------------------------------------------------
  // Boundary behaviour

  /** A bare invocation leaves a valid level unchanged, and pulls a level above
      the maximum down to the maximum. */
  lemma GetKeepsLevel(a: Args, current: nat, max: nat)
    requires max > 0 && a.op == Get
    ensures Compute(a, current, max).raw == (if current <= max then current else max)
  {
    if current <= max {
      DivUnique(100 * current, 100, current, 0);
    } else {
      DivBounds(100 * max, max);
    }
  }

  /** Setting p% writes ⌊p·max/100⌋ and shows exactly p% when p ≤ 100; any
      larger percentage saturates at the maximum and shows 100%. */
  lemma SetLevel(a: Args, current: nat, max: nat)
    requires max > 0 && a.op == Set
    ensures a.val <= 100 ==> Compute(a, current, max) == Level((a.val * max) / 100, a.val)
    ensures a.val >= 100 ==> Compute(a, current, max) == Level(max, 100)
  {
    var target := a.val * max;
    assert Requested(a, current, max) == target;
    if a.val <= 100 {
      assert target <= 100 * max by { MulLeq(a.val, 100, max); }
      assert Clamp(target, 100 * max) == target;
      DivUnique(target, max, a.val, 0);
    } else {
      assert target >= 100 * max by { MulLeq(100, a.val, max); }
      assert Clamp(target, 100 * max) == 100 * max;
      DivBounds(100 * max, max);
    }
  }

  /** Setting 0% always writes 0. */
  lemma SetZero(a: Args, current: nat, max: nat)
    requires max > 0 && a == Args(Set, 0)
    ensures Compute(a, current, max) == Level(0, 0)
  {
    SetLevel(a, current, max);
  }

  /** Decreasing by at least the current share reaches 0. */
  lemma DecreaseToZero(a: Args, current: nat, max: nat)
    requires max > 0 && a.op == Dec && a.val * max >= 100 * current
    ensures Compute(a, current, max) == Level(0, 0)
  {
  }

  /** Increasing past the maximum saturates at the maximum and shows 100%. */
  lemma IncreaseToMax(a: Args, current: nat, max: nat)
    requires max > 0 && a.op == Inc && 100 * current + a.val * max >= 100 * max
    ensures Compute(a, current, max) == Level(max, 100)
  {
    DivBounds(100 * max, max);
  }

  /** Increasing never lowers a valid level and decreasing never raises one. */
  lemma StepDirection(a: Args, current: nat, max: nat)
    requires max > 0 && current <= max
    ensures a.op == Inc ==> current <= Compute(a, current, max).raw
    ensures a.op == Dec ==> Compute(a, current, max).raw <= current
  {
    var n := Clamp(Requested(a, current, max), 100 * max);
    DivUnique(100 * current, 100, current, 0);
    if a.op == Inc {
      assert 100 * current <= n;
      DivMonotone(100 * current, n, 100);
    } else if a.op == Dec {
      assert n <= 100 * current;
      DivMonotone(n, 100 * current, 100);
    }
  }

  // ---------------------------------------------------------------------
  // The real-valued reading of the source

  /** The requested ratio exactly as the source computes it, in real
      arithmetic, before clamping. */
  function RequestedRatio(a: Args, current: nat, max: nat): (r: real)
    requires max > 0
    ensures a.op != Dec ==> r >= 0.0
    ensures a.op == Inc ==> r >= current as real / max as real
    ensures a.op == Dec ==> r <= current as real / max as real
    ensures a.op == Set ==> (r >= 1.0 <==> a.val >= 100)
  {
    var currentRatio := current as real / max as real;
    match a.op
    case Get => currentRatio
    case Set => a.val as real / 100.0
    case Inc => currentRatio + a.val as real / 100.0
    case Dec => currentRatio - a.val as real / 100.0
  }

  /** Clamps a ratio into [0, 1] the way the source does. */
  function ClampUnit(x: real): (r: real)
    ensures 0.0 <= r <= 1.0
    ensures 0.0 <= x <= 1.0 ==> r == x
  {
    if x > 1.0 then 1.0 else if x < 0.0 then 0.0 else x
  }

  /** The clamped ratio of the source. */
  function Ratio(a: Args, current: nat, max: nat): (rho: real)
    requires max > 0
    ensures 0.0 <= rho <= 1.0
    ensures current <= max && a.op == Get ==> rho == current as real / max as real
    ensures a.op == Set && a.val <= 100 ==> rho == a.val as real / 100.0
    ensures a.op == Set && a.val >= 100 ==> rho == 1.0
  {
    FractionAtMostOne(current as real, max as real);
    ClampUnit(RequestedRatio(a, current, max))
  }

  /** Rounding a quotient of naturals down is integer division. */
  lemma FloorOfQuotient(n: nat, d: nat)
    requires d > 0
    ensures (n as real / d as real).Floor == n / d
  {
    var q := n / d;
    var r := n % d;
    var qr, rr, dr := q as real, r as real, d as real;
    assert n as real == qr * dr + rr by {
      assert n == q * d + r;
      assert (q * d) as real == qr * dr;
    }
    assert n as real / dr == qr + rr / dr by {
      assert (qr * dr + rr) / dr == (qr * dr) / dr + rr / dr;
      assert (qr * dr) / dr == qr;
    }
    FractionBelowOne(rr, dr);
  }

  lemma FractionAtMostOne(x: real, h: real)
    requires 0.0 <= x && h > 0.0
    ensures x <= h ==> 0.0 <= x / h <= 1.0
  {
    var y := x / h;
    assert y * h == x;
    assert (1.0 - y) * h == h - x;
  }

  lemma FractionBelowOne(x: real, h: real)
    requires 0.0 <= x < h
    ensures 0.0 <= x / h < 1.0
  {
    var y := x / h;
    assert y * h == x;
    assert (1.0 - y) * h == h - x;
  }

  /** The requested ratio of the source is the integer target over 100 * max. */
  lemma RequestedIsRatio(a: Args, current: nat, max: nat)
    requires max > 0
    ensures RequestedRatio(a, current, max) == Requested(a, current, max) as real / (100 * max) as real
  {
    var m := max as real;
    var c := current as real;
    var v := a.val as real;
    assert (100 * max) as real == 100.0 * m;
    assert (100 * current) as real == 100.0 * c;
    assert (a.val * max) as real == v * m;
    InHundredthsOfMax(c, v, m);
    match a.op
    case Get =>
    case Set =>
    case Inc =>
      assert (100 * current + a.val * max) as real == 100.0 * c + v * m;
    case Dec =>
      assert (100 * current - a.val * max) as real == 100.0 * c - v * m;
  }

  /** The real identities behind `RequestedIsRatio`: the current ratio and
      a percentage, alone or combined, written over the common denominator
      100 * max. */
  lemma InHundredthsOfMax(c: real, v: real, m: real)
    requires m > 0.0
    ensures c / m == (100.0 * c) / (100.0 * m)
    ensures v / 100.0 == (v * m) / (100.0 * m)
    ensures c / m + v / 100.0 == (100.0 * c + v * m) / (100.0 * m)
    ensures c / m - v / 100.0 == (100.0 * c - v * m) / (100.0 * m)
  {
    var h := 100.0 * m;
    assert c / m == (100.0 * c) / h;
    assert v / 100.0 == (v * m) / h;
    assert (100.0 * c) / h + (v * m) / h == (100.0 * c + v * m) / h;
    assert (100.0 * c) / h - (v * m) / h == (100.0 * c - v * m) / h;
  }

  /** Clamping commutes with scaling by a positive bound. */
  lemma ClampScales(n: int, hi: nat)
    requires hi > 0
    ensures ClampUnit(n as real / hi as real) == Clamp(n, hi) as real / hi as real
  {
    var h := hi as real;
    if n > hi {
      AboveOne(n as real, h);
      assert h / h == 1.0;
    } else if n < 0 {
      assert n as real / h < 0.0;
      assert 0.0 / h == 0.0;
    } else {
      assert n as real <= h;
      assert (n as real / h) * h == n as real;
      assert n as real / h <= 1.0;
    }
  }

  /** The source's clamped ratio is the clamped integer target over 100 * max. */
  lemma ClampedRatio(a: Args, current: nat, max: nat)
    requires max > 0
    ensures Ratio(a, current, max)
            == Clamp(Requested(a, current, max), 100 * max) as real / (100 * max) as real
  {
    RequestedIsRatio(a, current, max);
    ClampScales(Requested(a, current, max), 100 * max);
  }

  lemma AboveOne(x: real, h: real)
    requires 0.0 < h < x
    ensures x / h > 1.0
  {
    var y := x / h;
    assert y * h == x;
    assert (y - 1.0) * h == x - h;
  }

  /** Scaling a ratio n / (100 m) back up by m or by 100, and rounding down. */
  lemma FloorOfScaledRatio(n: nat, max: nat, rho: real)
    requires max > 0 && rho == n as real / (100 * max) as real
    ensures (rho * max as real).Floor == n / 100
    ensures (rho * 100.0).Floor == n / max
  {
    var m := max as real;
    var x := n as real;
    assert (100 * max) as real == 100.0 * m;
    assert rho * m == x / 100.0 by {
      assert (x / (100.0 * m)) * m == x / 100.0;
    }
    assert rho * 100.0 == x / m by {
      assert (x / (100.0 * m)) * 100.0 == x / m;
    }
    FloorOfQuotient(n, 100);
    FloorOfQuotient(n, max);
  }

  /** The integer engine agrees with the source's real-valued computation:
      the raw value is ⌊ρ·max⌋ and the percentage is ⌊ρ·100⌋, where ρ is the
      clamped ratio (both are non-negative, so the source's truncating casts
      round down). The ratio is passed as a parameter pinned by the
      precondition rather than written as `Ratio(...)` in the conclusion:
      unfolding `Ratio` there makes the verifier run out of resource. */
  lemma ComputeMatchesRatio(a: Args, current: nat, max: nat, rho: real)
    requires max > 0 && rho == Ratio(a, current, max)
    ensures Compute(a, current, max).raw == (rho * max as real).Floor
    ensures Compute(a, current, max).shown == (rho * 100.0).Floor
  {
    var n := Clamp(Requested(a, current, max), 100 * max);
    var level := Compute(a, current, max);
    assert level.raw == n / 100 && level.shown == n / max;
    assert rho == n as real / (100 * max) as real by {
      ClampedRatio(a, current, max);
    }
    LevelFromRatio(n, max, rho, level);
  }

  /** The final substitution of `ComputeMatchesRatio`, kept free of the
      definitions of `Compute` and `Ratio`. */
  lemma LevelFromRatio(n: nat, max: nat, rho: real, level: Level)
    requires max > 0 && rho == n as real / (100 * max) as real
    requires level.raw == n / 100 && level.shown == n / max
    ensures level.raw == (rho * max as real).Floor
    ensures level.shown == (rho * 100.0).Floor
  {
    FloorOfScaledRatio(n, max, rho);
  }

  // ---------------------------------------------------------------------
  // Properties across invocations

  /** After any request, a following bare invocation reports the same raw
      value and therefore writes nothing. */
  lemma GetIsFixedPoint(a: Args, current: nat, max: nat, g: Args)
    requires max > 0 && g.op == Get
    ensures Compute(g, Compute(a, current, max).raw, max).raw == Compute(a, current, max).raw
  {
  }

  /** Setting the same percentage twice gives the same raw value both times. */
  lemma SetIdempotent(a: Args, current: nat, max: nat)
    requires max > 0 && a.op == Set
    ensures Compute(a, Compute(a, current, max).raw, max) == Compute(a, current, max)
  {
  }

  /** Setting p% and then asking again never shows more than p%. */
  lemma SetThenGetAtMost(p: nat, current: nat, max: nat)
    requires max > 0 && p <= 100
    ensures var raw := Compute(Args(Set, p), current, max).raw;
            Compute(Args(Get, 0), raw, max).shown <= p
  {
    SetLevel(Args(Set, p), current, max);
    var raw := (p * max) / 100;
    GetShown(raw, max);
    PercentOfTruncatedAtMost(p, max, raw);
  }

  /** On a device with at least 100 steps, asking again after setting p%
      shows p% or p-1%. */
  lemma SetThenGetAtLeast(p: nat, current: nat, max: nat)
    requires max >= 100 && 1 <= p <= 100
    ensures var raw := Compute(Args(Set, p), current, max).raw;
            Compute(Args(Get, 0), raw, max).shown + 1 >= p
  {
    SetLevel(Args(Set, p), current, max);
    var raw := (p * max) / 100;
    GetShown(raw, max);
    PercentOfTruncatedAtLeast(p, max, raw);
  }

  /** The arithmetic of `SetThenGetAtMost`: truncating p·max/100 can only
      lower the percentage read back. */
  lemma PercentOfTruncatedAtMost(p: nat, max: nat, raw: nat)
    requires max > 0 && raw == (p * max) / 100
    ensures (100 * raw) / max <= p
  {
    var target := p * max;
    assert target == raw * 100 + target % 100;
    DivUnique(target, max, p, 0);
    DivMonotone(100 * raw, target, max);
  }

  /** The arithmetic of `SetThenGetAtLeast`: with at least 100 steps the
      truncation loses less than one step of a percent. */
  lemma PercentOfTruncatedAtLeast(p: nat, max: nat, raw: nat)
    requires max >= 100 && p >= 1 && raw == (p * max) / 100
    ensures (100 * raw) / max + 1 >= p
  {
    var target := p * max;
    assert target == raw * 100 + target % 100;
    var below := (p - 1) * max;
    assert below == target - max by {
      assert (p - 1) * max == p * max - 1 * max;
    }
    assert below <= 100 * raw;
    DivUnique(below, max, p - 1, 0);
    DivMonotone(below, 100 * raw, max);
  }

  /** What a bare invocation shows for a valid level. */
  lemma GetShown(current: nat, max: nat)
    requires max > 0 && current <= max
    ensures Compute(Args(Get, 0), current, max).shown == (100 * current) / max
  {
  }

  /** The displayed percentage of a later bare invocation can differ from the
      one the set request showed: with max = 255, "=50" writes 127 and shows
      50%, and reading 127 back shows 49%. */
  lemma SetThenGetMayShowLess()
    ensures Compute(Args(Set, 50), 0, 255) == Level(127, 50)
    ensures Compute(Args(Get, 0), 127, 255) == Level(127, 49)
  {
  }

  /** "+10" on 50 out of 100 gives 60 and shows 60%. */
  lemma IncreaseScenario()
    ensures Compute(Args(Inc, 10), 50, 100) == Level(60, 60)
  {
  }
}

=== FILE: commandline.dfy ===
/**
 The argument parser of the backlight utility (`parse_args`). The command line
 is either empty (report the level) or one word: an operator character '=',
 '+' or '-' followed by a percentage written in decimal digits.
 */
module CommandLine {
  import opened Wrappers
  import opened Decimal

  /** The four operations; `Get` carries the value 0. */
  datatype Op = Get | Set | Inc | Dec

  /** The parsed request, as the `struct args` of the source. */
  datatype Args = Args(op: Op, val: nat)

  /** Every rejection is reported the same way and ends the process with status 1. */
  datatype ArgError = UnexpectedArguments

  const ExitFailArgs: nat := 1

  /** The operation an operator character selects, if any. */
  function OpOf(c: char): (r: Option<Op>)
    ensures r.Some? <==> c in "=+-"
    ensures r.Some? ==> r.value != Get
  {
    if c == '=' then Some(Set)
    else if c == '+' then Some(Inc)
    else if c == '-' then Some(Dec)
    else None
  }

  /** The operator character of a non-Get operation; the inverse of `OpOf`. */
  function OpChar(op: Op): (c: char)
    requires op != Get
    ensures OpOf(c) == Some(op)
  {
    match op
    case Set => '='
    case Inc => '+'
    case Dec => '-'
  }

  /** Independent statement of which single words the parser accepts: an
      operator character, then at least one digit and nothing else, where a
      run of zeros is only allowed as the single digit "0". */
  predicate WellFormedCommand(cmd: string) {
    && |cmd| >= 2
    && cmd[0] in "=+-"
    && AllDigits(cmd[1..])
    && (cmd[1..] == "0" || exists i :: 1 <= i < |cmd| && cmd[i] != '0')
  }

  /** Parses the single word of a one-argument command line. The value comes
      from the digit scan; it is refused when the scan stops before the end of
      the word, or when it is 0 but the operand is not literally "0" (which
      also refuses an empty operand). */
  function ParseCommand(cmd: string): (r: Result<Args, ArgError>)
    ensures r.Success? <==> WellFormedCommand(cmd)
    ensures r.Success? ==> && r.value.op != Get
                           && OpOf(cmd[0]) == Some(r.value.op)
                           && r.value.val == ValueOf(cmd[1..])
    ensures r.Success? && r.value.val == 0 ==> cmd == [cmd[0], '0']
  {
    if |cmd| == 0 then
      Failure(UnexpectedArguments)
    else
      match OpOf(cmd[0])
      case None => Failure(UnexpectedArguments)
      case Some(op) =>
        var operand := cmd[1..];
        var scan := ScanDecimal(operand);
        ScanTestMatchesGrammar(cmd);
        if (scan.value == 0 && operand != "0") || scan.consumed != |operand| then
          Failure(UnexpectedArguments)
        else
          assert operand[..scan.consumed] == operand;
          Success(Args(op, scan.value))
  }

  /** Links the scan-based acceptance test to `WellFormedCommand`. */
  lemma ScanTestMatchesGrammar(cmd: string)
    requires |cmd| >= 1 && cmd[0] in "=+-"
    ensures var operand := cmd[1..];
            var scan := ScanDecimal(operand);
            !((scan.value == 0 && operand != "0") || scan.consumed != |operand|)
            <==> WellFormedCommand(cmd)
  {
    var operand := cmd[1..];
    var scan := ScanDecimal(operand);
    if AllDigits(operand) {
      assert operand[..scan.consumed] == operand;
      ValueZeroIffAllZeros(operand);
      if scan.value != 0 {
        var j :| 0 <= j < |operand| && operand[j] != '0';
        assert cmd[j + 1] != '0';
      } else if exists i :: 1 <= i < |cmd| && cmd[i] != '0' {
        var i :| 1 <= i < |cmd| && cmd[i] != '0';
        assert operand[i - 1] != '0';
      }
    }
  }

  /** `parse_args`: `argv` is the whole vector, program name included, so a
      bare invocation has length 1. */
  function ParseArgs(argv: seq<string>): (r: Result<Args, ArgError>)
    ensures |argv| == 1 ==> r == Success(Args(Get, 0))
    ensures |argv| != 1 && |argv| != 2 ==> r == Failure(UnexpectedArguments)
    ensures r.Success? && r.value.op != Get ==> |argv| == 2 && WellFormedCommand(argv[1])
    ensures |argv| == 2 ==> (r.Success? <==> WellFormedCommand(argv[1]))
    ensures |argv| == 2 && r.Success? ==> && OpOf(argv[1][0]) == Some(r.value.op)
                                          && r.value.val == ValueOf(argv[1][1..])
  {
    if |argv| == 1 then Success(Args(Get, 0))
    else if |argv| == 2 then ParseCommand(argv[1])
    else Failure(UnexpectedArguments)
  }

  /** The canonical spelling of a non-Get request. */
  function Render(a: Args): string
    requires a.op != Get
  {
    [OpChar(a.op)] + Format(a.val)
  }

  /** Every non-Get request is recovered from its canonical spelling. */
  lemma ParseRenderRoundTrip(prog: string, a: Args)
    requires a.op != Get
    ensures ParseArgs([prog, Render(a)]) == Success(a)
  {
    var cmd := Render(a);
    var digits := Format(a.val);
    assert cmd[1..] == digits;
    FormatCanonical(a.val);
    if a.val == 0 {
      ValueZeroIffAllZeros(digits);
      assert digits == "0";
    }
    assert ParseCommand(cmd).Success?;
  }

  /** A word whose first character is not an operator is refused, whatever follows. */
  lemma RejectsUnknownOperator(prog: string, cmd: string)
    requires |cmd| == 0 || cmd[0] !in "=+-"
    ensures ParseArgs([prog, cmd]) == Failure(UnexpectedArguments)
  {
  }

  /** A non-digit anywhere after the operator is refused (trailing garbage
      leaves the scan's end short of the end of the word). */
  lemma RejectsNonDigit(prog: string, cmd: string, i: nat)
    requires 1 <= i < |cmd| && !IsDigit(cmd[i])
    ensures ParseArgs([prog, cmd]).Failure?
  {
    assert !IsDigit(cmd[1..][i - 1]);
  }

  /** Concrete cases of the zero rule: "=" and "=00" are refused, "=0" sets 0,
      "=007" sets 7, and "+5x" is refused. */
  lemma ZeroSpellings(prog: string)
    ensures ParseArgs([prog, "="]).Failure?
    ensures ParseArgs([prog, "=00"]).Failure?
    ensures ParseArgs([prog, "=0"]) == Success(Args(Set, 0))
    ensures ParseArgs([prog, "=007"]) == Success(Args(Set, 7))
    ensures ParseArgs([prog, "+5x"]).Failure?
    ensures ParseArgs([prog, "abc"]).Failure?
  {
    assert "=007"[1..] == "007";
    assert "007"[..2] == "00";
    assert "00"[..1] == "0";
    assert "0"[..0] == "";
    assert !WellFormedCommand("=00") by {
      assert forall i :: 1 <= i < 3 ==> "=00"[i] == '0';
    }
    assert !IsDigit("+5x"[2]);
    RejectsNonDigit(prog, "+5x", 2);
  }
}

=== FILE: decimal.dfy ===
/**
 Decimal text as the utility reads and writes it: the digit scan that
 `strtoul(s, &end, 10)` performs on an operand made of decimal digits, and the
 `%lu` rendering used when a brightness value is written back.
 */
module Decimal {

  predicate IsDigit(c: char) {
    '0' <= c <= '9'
  }

  predicate AllDigits(s: string) {
    forall i :: 0 <= i < |s| ==> IsDigit(s[i])
  }

  function DigitValue(c: char): (d: nat)
    requires IsDigit(c)
    ensures d < 10
  {
    c as int - '0' as int
  }

  function DigitChar(d: nat): (c: char)
    requires d < 10
    ensures IsDigit(c) && DigitValue(c) == d
  {
    ('0' as int + d) as char
  }

  /** The number a string of decimal digits denotes, most significant digit first. */
  function ValueOf(s: string): nat
    requires AllDigits(s)
  {
    if |s| == 0 then 0 else ValueOf(s[..|s| - 1]) * 10 + DigitValue(s[|s| - 1])
  }

  /** Length of the longest prefix of `s` made of decimal digits. */
  function DigitPrefixLength(s: string): (n: nat)
    ensures n <= |s|
    ensures AllDigits(s[..n])
    ensures n < |s| ==> !IsDigit(s[n])
  {
    if |s| > 0 && IsDigit(s[0]) then
      var k := DigitPrefixLength(s[1..]);
      assert s[..k + 1] == [s[0]] + s[1..][..k];
      k + 1
    else
      0
  }

  /** What `strtoul(s, &end, 10)` yields: the value and how many characters
      `end` lies past `s`. With no digit at all nothing is consumed and the
      value is 0. */
  datatype Scan = Scan(value: nat, consumed: nat)

  function ScanDecimal(s: string): (r: Scan)
    ensures r.consumed <= |s|
    ensures AllDigits(s[..r.consumed])
    ensures r.value == ValueOf(s[..r.consumed])
    ensures r.consumed < |s| ==> !IsDigit(s[r.consumed])
    ensures r.consumed == |s| <==> AllDigits(s)
  {
    var n := DigitPrefixLength(s);
    assert n < |s| ==> !AllDigits(s);
    Scan(ValueOf(s[..n]), n)
  }

  /** A digit string denotes zero exactly when every digit is '0'. */
  lemma {:induction false} ValueZeroIffAllZeros(s: string)
    requires AllDigits(s)
    ensures ValueOf(s) == 0 <==> forall i :: 0 <= i < |s| ==> s[i] == '0'
  {
    if |s| > 0 {
      var p := s[..|s| - 1];
      assert AllDigits(p);
      ValueZeroIffAllZeros(p);
      assert forall i :: 0 <= i < |p| ==> p[i] == s[i];
    }
  }

  /** The decimal text `%lu` produces: no sign, no leading zero except for 0 itself. */
  function Format(n: nat): (s: string)
    ensures |s| > 0
    ensures AllDigits(s)
    ensures ValueOf(s) == n
    ensures |s| > 1 ==> s[0] != '0'
    decreases n
  {
    if n < 10 then
      [DigitChar(n)]
    else
      var p := Format(n / 10);
      var s := p + [DigitChar(n % 10)];
      assert s[..|s| - 1] == p;
      s
  }

  /** Formatting and scanning are inverse: scanning the text `%lu` wrote back
      consumes all of it and recovers the value. */
  lemma ScanFormatRoundTrip(n: nat)
    ensures ScanDecimal(Format(n)) == Scan(n, |Format(n)|)
  {
    var s := Format(n);
    assert s[..|s|] == s;
  }

  /** The only formatted text with a leading '0' is "0" itself. */
  lemma FormatCanonical(n: nat)
    ensures Format(n)[0] == '0' <==> n == 0
  {
    var s := Format(n);
    if s[0] == '0' && |s| == 1 {
      assert s[..0] == [];
    }
  }
}

=== FILE: driver.dfy ===
/**
 The orchestration of `main`: parse the command line, locate the device,
 read `max_brightness` and `brightness`, compute the new level, write it
 under elevated identity when it changed, and print the percentage.

 The outside world is an `Env`: the base directory listing, the contents of
 the readable pseudo-files (already converted to numbers), which paths can be
 opened for writing, and whether switching to the privileged identity
 succeeds.
 */
module Driver {
  import opened Wrappers
  import opened Decimal
  import opened CommandLine
  import opened Paths
  import opened Locator
  import opened Brightness

  const MaxBrightnessFile: string := "max_brightness"
  const BrightnessFile: string := "brightness"

  const ExitSuccess: nat := 0
  const ExitFailPerm: nat := 2

  datatype Env = Env(
    listing: Option<seq<Entry>>,
    files: map<string, nat>,
    writable: set<string>,
    canElevate: bool)

  /** The three ways the write step can go. */
  datatype WriteDecision = Unchanged | Denied | WriteRaw(value: nat)

  /** Elevation and the write are attempted only when the level changes;
      failing to elevate stops before anything is written. */
  function DecideWrite(current: nat, raw: nat, canElevate: bool): (d: WriteDecision)
    ensures d.Unchanged? <==> raw == current
    ensures d.Denied? <==> raw != current && !canElevate
    ensures d.WriteRaw? <==> raw != current && canElevate
    ensures d.WriteRaw? ==> d.value == raw
  {
    if raw == current then Unchanged
    else if !canElevate then Denied
    else WriteRaw(raw)
  }

  /** The text written to a pseudo-file and where. */
  datatype Write = Write(path: string, text: string)

  /** How a run ends: an exit status, the percentage printed on success, and
      the write performed, if any. `Unspecified` stands for a device whose
      maximum reads as 0, where the source divides by zero in floating point:
      the ratio is +∞ (clamped to 1.0, so 0 is written and 100% printed) when
      the current level is above 0, and NaN, whose conversion to an integer
      is undefined, for Get, Inc and Dec at level 0. */
  datatype Outcome =
    | Finished(code: nat, printed: Option<nat>, write: Option<Write>)
    | Unspecified

  /** The device directory a run settles on, if any. */
  function DeviceDir(env: Env): Result<string, LocateError> {
    Locate(BacklightBaseDir, env.listing)
  }

  function Run(argv: seq<string>, env: Env): (o: Outcome)
    ensures ParseArgs(argv).Failure? ==> o == Finished(ExitFailArgs, None, None)
    ensures ParseArgs(argv).Success? && DeviceDir(env).Failure? ==> o == Finished(ExitFailFile, None, None)
    ensures o.Finished? ==> o.code in {ExitSuccess, ExitFailArgs, ExitFailPerm, ExitFailFile}
    ensures o.Finished? ==> (o.code == ExitSuccess <==> o.printed.Some?)
    ensures o.Finished? && o.printed.Some? ==> o.printed.value <= 100
    ensures o.Finished? && o.write.Some? ==> o.code == ExitSuccess && env.canElevate
    ensures o.Unspecified? ==> DeviceDir(env).Success?
                               && PathConcat(DeviceDir(env).value, MaxBrightnessFile) in env.files
                               && env.files[PathConcat(DeviceDir(env).value, MaxBrightnessFile)] == 0
  {
    match ParseArgs(argv)
    case Failure(_) => Finished(ExitFailArgs, None, None)
    case Success(args) =>
      match DeviceDir(env)
      case Failure(_) => Finished(ExitFailFile, None, None)
      case Success(dir) =>
        var maxPath := PathConcat(dir, MaxBrightnessFile);
        var levelPath := PathConcat(dir, BrightnessFile);
        if maxPath !in env.files || levelPath !in env.files then
          Finished(ExitFailFile, None, None)
        else
          var max := env.files[maxPath];
          var current := env.files[levelPath];
          if max == 0 then
            Unspecified
          else
            var level := Compute(args, current, max);
            match DecideWrite(current, level.raw, env.canElevate)
            case Unchanged => Finished(ExitSuccess, Some(level.shown), None)
            case Denied => Finished(ExitFailPerm, None, None)
            case WriteRaw(v) =>
              if levelPath in env.writable then
                Finished(ExitSuccess, Some(level.shown), Some(Write(levelPath, Format(v))))
              else
                Finished(ExitFailFile, None, None)
  }

  /** Whatever the environment, a rejected command line ends with status 1
      before any file is looked at. */
  lemma ArgErrorIgnoresEnvironment(argv: seq<string>, env1: Env, env2: Env)
    requires ParseArgs(argv).Failure?
    ensures Run(argv, env1) == Run(argv, env2) == Finished(ExitFailArgs, None, None)
  {
  }

  /** A write goes to `brightness` in the located device directory and
      carries the decimal text of the computed level, which lies in
      [0, max] and differs from the level read. */
  lemma WriteIsComputedLevel(argv: seq<string>, env: Env)
    requires Run(argv, env).Finished? && Run(argv, env).write.Some?
    ensures ParseArgs(argv).Success? && DeviceDir(env).Success?
    ensures var dir := DeviceDir(env).value;
            var maxPath := PathConcat(dir, MaxBrightnessFile);
            var levelPath := PathConcat(dir, BrightnessFile);
            var w := Run(argv, env).write.value;
            && maxPath in env.files && levelPath in env.files
            && env.files[maxPath] > 0
            && var raw := Compute(ParseArgs(argv).value, env.files[levelPath], env.files[maxPath]).raw;
               && w.path == levelPath
               && AllDigits(w.text) && ValueOf(w.text) == raw
               && raw <= env.files[maxPath]
               && raw != env.files[levelPath]
               && levelPath in env.writable
  {
  }

  /** Without elevation a run succeeds only if it leaves the level as it was,
      and an attempted change ends with status 2 and no write. */
  lemma WithoutElevation(argv: seq<string>, env: Env)
    requires !env.canElevate
    requires Run(argv, env).Finished?
    ensures Run(argv, env).write.None?
    ensures ParseArgs(argv).Success? && DeviceDir(env).Success? ==>
              var dir := DeviceDir(env).value;
              var maxPath := PathConcat(dir, MaxBrightnessFile);
              var levelPath := PathConcat(dir, BrightnessFile);
              maxPath in env.files && levelPath in env.files && env.files[maxPath] > 0 ==>
                var current := env.files[levelPath];
                var raw := Compute(ParseArgs(argv).value, current, env.files[maxPath]).raw;
                (Run(argv, env).code == ExitFailPerm <==> raw != current)
  {
  }

  /** A bare invocation on a valid level never writes, so it needs no
      elevation, and prints ⌊100·current/max⌋. */
  lemma BareInvocationReadsOnly(prog: string, env: Env)
    requires DeviceDir(env).Success?
    requires var dir := DeviceDir(env).value;
             var maxPath := PathConcat(dir, MaxBrightnessFile);
             var levelPath := PathConcat(dir, BrightnessFile);
             && maxPath in env.files && levelPath in env.files
             && 0 < env.files[maxPath] && env.files[levelPath] <= env.files[maxPath]
    ensures var dir := DeviceDir(env).value;
            var max := env.files[PathConcat(dir, MaxBrightnessFile)];
            var current := env.files[PathConcat(dir, BrightnessFile)];
            Run([prog], env) == Finished(ExitSuccess, Some((100 * current) / max), None)
  {
    var dir := DeviceDir(env).value;
    var max := env.files[PathConcat(dir, MaxBrightnessFile)];
    var current := env.files[PathConcat(dir, BrightnessFile)];
    GetKeepsLevel(Args(Get, 0), current, max);
    GetShown(current, max);
  }

  /** Once the command line is accepted and the device located: a pseudo-file
      that cannot be opened for reading ends with status 3; a success prints
      the computed percentage; an unchanged level succeeds without a write;
      and a changed level whose file cannot be opened for writing ends with
      status 3 after elevation. */
  lemma RunAfterLocating(argv: seq<string>, env: Env, args: Args, dir: string)
    requires ParseArgs(argv) == Success(args) && DeviceDir(env) == Success(dir)
    ensures var maxPath := PathConcat(dir, MaxBrightnessFile);
            var levelPath := PathConcat(dir, BrightnessFile);
            maxPath !in env.files || levelPath !in env.files ==>
              Run(argv, env) == Finished(ExitFailFile, None, None)
    ensures var maxPath := PathConcat(dir, MaxBrightnessFile);
            var levelPath := PathConcat(dir, BrightnessFile);
            maxPath in env.files && levelPath in env.files && env.files[maxPath] > 0 ==>
              var max := env.files[maxPath];
              var current := env.files[levelPath];
              var level := Compute(args, current, max);
              && (Run(argv, env).Finished? && Run(argv, env).code == ExitSuccess ==>
                    Run(argv, env).printed == Some(level.shown))
              && (level.raw == current ==>
                    Run(argv, env) == Finished(ExitSuccess, Some(level.shown), None))
              && (level.raw != current && env.canElevate && levelPath !in env.writable ==>
                    Run(argv, env) == Finished(ExitFailFile, None, None))
  {
  }

  /** A run that parses, finds the device, reads both files and changes the
      level ends with status 0, prints the percentage and writes the level. */
  lemma ChangedLevelIsWritten(argv: seq<string>, env: Env, args: Args, dir: string, max: nat, current: nat)
    requires ParseArgs(argv) == Success(args) && DeviceDir(env) == Success(dir)
    requires PathConcat(dir, MaxBrightnessFile) in env.files
    requires PathConcat(dir, BrightnessFile) in env.files
    requires env.files[PathConcat(dir, MaxBrightnessFile)] == max > 0
    requires env.files[PathConcat(dir, BrightnessFile)] == current
    requires Compute(args, current, max).raw != current && env.canElevate
    requires PathConcat(dir, BrightnessFile) in env.writable
    ensures var level := Compute(args, current, max);
            Run(argv, env)
            == Finished(ExitSuccess, Some(level.shown), Some(Write(PathConcat(dir, BrightnessFile), Format(level.raw))))
  {
  }

  // ---------------------------------------------------------------------
  // Scenarios

  /** A sysfs-like device: ".", "..", then a link named `acpi_video0`. */
  const Device: string := PathConcat(BacklightBaseDir, "acpi_video0")

  function Sysfs(max: nat, current: nat): Env {
    Env(Some([Entry(Directory, "."), Entry(Directory, ".."), Entry(Symlink, "acpi_video0")]),
        map[PathConcat(Device, MaxBrightnessFile) := max, PathConcat(Device, BrightnessFile) := current],
        {PathConcat(Device, BrightnessFile)},
        true)
  }

  lemma SysfsDevice(max: nat, current: nat)
    ensures DeviceDir(Sysfs(max, current)) == Success(Device)
    ensures var env := Sysfs(max, current);
            var maxPath := PathConcat(Device, MaxBrightnessFile);
            var levelPath := PathConcat(Device, BrightnessFile);
            && maxPath in env.files && env.files[maxPath] == max
            && levelPath in env.files && env.files[levelPath] == current
            && levelPath in env.writable
  {
    var entries := Sysfs(max, current).listing.value;
    assert !IsDeviceEntry(entries[0]) && !IsDeviceEntry(entries[1]) && IsDeviceEntry(entries[2]);
    assert FirstDevice(entries) == Some(2);
    assert |PathConcat(Device, MaxBrightnessFile)| != |PathConcat(Device, BrightnessFile)|;
  }

  /** "+10" at 50 out of 100 writes "60" and prints 60%. */
  lemma IncreaseByTen(prog: string)
    ensures Run([prog, "+10"], Sysfs(100, 50))
            == Finished(ExitSuccess, Some(60), Some(Write(PathConcat(Device, BrightnessFile), "60")))
  {
    SysfsDevice(100, 50);
    assert Format(10) == "10";
    assert Render(Args(Inc, 10)) == "+10";
    ParseRenderRoundTrip(prog, Args(Inc, 10));
    assert ParseArgs([prog, "+10"]) == Success(Args(Inc, 10));
    IncreaseScenario();
    assert Format(60) == "60";
    ChangedLevelIsWritten([prog, "+10"], Sysfs(100, 50), Args(Inc, 10), Device, 100, 50);
  }

  /** "=50" at 0 out of 255 writes "127" and prints 50%. */
  // The inputs are passed as parameters pinned by the precondition rather than
  // written as literals in the conclusion: with the literals in place the
  // verifier evaluates `Run` on them eagerly and runs out of resource.
  lemma SetHalf(prog: string, argv: seq<string>, env: Env)
    requires argv == [prog, "=50"] && env == Sysfs(255, 0)
    ensures Run(argv, env)
            == Finished(ExitSuccess, Some(50), Some(Write(PathConcat(Device, BrightnessFile), "127")))
  {
    SysfsDevice(255, 0);
    assert Format(50) == "50";
    assert Render(Args(Set, 50)) == "=50";
    ParseRenderRoundTrip(prog, Args(Set, 50));
    SetLevel(Args(Set, 50), 0, 255);
    assert (50 * 255) / 100 == 127;
    FormatThreeDigits();
    var level := Compute(Args(Set, 50), 0, 255);
    assert level == Level(127, 50);
    var path := PathConcat(Device, BrightnessFile);
    ChangedLevelIsWritten(argv, env, Args(Set, 50), Device, 255, 0);
    assert Run(argv, env) == Finished(ExitSuccess, Some(level.shown), Some(Write(path, Format(level.raw))));
  }

  lemma FormatThreeDigits()
    ensures Format(127) == "127"
  {
    assert Format(12) == "12";
  }

  /** A missing base directory ends with status 3 and nothing else. */
  lemma MissingBaseDirectory(prog: string, env: Env)
    requires env.listing.None?
    ensures Run([prog], env) == Finished(ExitFailFile, None, None)
  {
  }
}

=== FILE: locator.dfy ===
/**
 Device discovery (`find_backlight_dir`). The directory stream is a sequence
 of entries in the order the system enumerates them; `None` stands for a base
 directory that cannot be opened.
 */
module Locator {
  import opened Wrappers
  import opened Paths

  const BacklightBaseDir: string := "/sys/class/backlight"
  const ExitFailFile: nat := 3

  /** The entry types the scan distinguishes; everything else is `OtherKind`. */
  datatype EntryKind = Directory | Symlink | RegularFile | OtherKind

  datatype Entry = Entry(kind: EntryKind, name: string)

  /** Both failures end the process with status 3, with different messages. */
  datatype LocateError = BaseDirMissing(base: string) | NoDevice(base: string)

  /** An entry is taken as the device when it is a directory or a symbolic
      link and its name does not start with '.' (which also skips "." and ".."). */
  predicate IsDeviceEntry(e: Entry)
    ensures IsDeviceEntry(e) ==> e.kind == Directory || e.kind == Symlink
    ensures e.name == "." || e.name == ".." ==> !IsDeviceEntry(e)
  {
    (e.kind == Directory || e.kind == Symlink) && !(|e.name| > 0 && e.name[0] == '.')
  }

  /** Index of the first device entry, if there is one. */
  function FirstDevice(entries: seq<Entry>): (r: Option<nat>)
    ensures r.None? <==> forall i :: 0 <= i < |entries| ==> !IsDeviceEntry(entries[i])
    ensures r.Some? ==> && r.value < |entries|
                        && IsDeviceEntry(entries[r.value])
                        && forall j :: 0 <= j < r.value ==> !IsDeviceEntry(entries[j])
  {
    if |entries| == 0 then None
    else if IsDeviceEntry(entries[0]) then Some(0)
    else
      match FirstDevice(entries[1..])
      case None => None
      case Some(k) => Some(k + 1)
  }

  /** The device directory: the base joined with the first qualifying entry. */
  function Locate(base: string, listing: Option<seq<Entry>>): (r: Result<string, LocateError>)
    ensures listing.None? ==> r == Failure(BaseDirMissing(base))
    ensures listing.Some? ==>
              (r == Failure(NoDevice(base)) <==>
                 forall i :: 0 <= i < |listing.value| ==> !IsDeviceEntry(listing.value[i]))
    ensures r.Success? <==>
              listing.Some? && exists i :: 0 <= i < |listing.value| && IsDeviceEntry(listing.value[i])
    ensures r.Success? ==>
              listing.Some? &&
              exists i :: && 0 <= i < |listing.value|
                          && IsDeviceEntry(listing.value[i])
                          && (forall j :: 0 <= j < i ==> !IsDeviceEntry(listing.value[j]))
                          && r.value == PathConcat(base, listing.value[i].name)
  {
    match listing
    case None => Failure(BaseDirMissing(base))
    case Some(entries) =>
      match FirstDevice(entries)
      case None => Failure(NoDevice(base))
      case Some(i) => Success(PathConcat(base, entries[i].name))
  }

  /** The selection depends only on the prefix up to the first device: entries
      after it never change the result. */
  lemma LaterEntriesIrrelevant(base: string, entries: seq<Entry>, more: seq<Entry>)
    requires exists i :: 0 <= i < |entries| && IsDeviceEntry(entries[i])
    ensures Locate(base, Some(entries + more)) == Locate(base, Some(entries))
  {
    var all := entries + more;
    var k := FirstDevice(entries).value;
    assert all[k] == entries[k];
    forall j | 0 <= j < k
      ensures !IsDeviceEntry(all[j])
    {
      assert all[j] == entries[j];
    }
    var r := FirstDevice(all);
    assert r.Some?;
    assert !(r.value > k);
    assert r.value == k;
    assert all[k].name == entries[k].name;
  }

  /** Leading hidden or non-directory entries are skipped. */
  lemma SkipsNonDevices(base: string, skipped: seq<Entry>, rest: seq<Entry>)
    requires forall i :: 0 <= i < |skipped| ==> !IsDeviceEntry(skipped[i])
    ensures Locate(base, Some(skipped + rest)).Success? <==> Locate(base, Some(rest)).Success?
    ensures Locate(base, Some(skipped + rest)).Success? ==>
              Locate(base, Some(skipped + rest)) == Locate(base, Some(rest))
  {
    var all := skipped + rest;
    assert forall i :: 0 <= i < |rest| ==> all[|skipped| + i] == rest[i];
    match FirstDevice(rest)
    case None =>
      assert forall i :: 0 <= i < |all| ==> !IsDeviceEntry(all[i]) by {
        forall i | 0 <= i < |all|
          ensures !IsDeviceEntry(all[i])
        {
          if i >= |skipped| {
            assert all[i] == rest[i - |skipped|];
          }
        }
      }
    case Some(k) =>
      assert IsDeviceEntry(all[|skipped| + k]);
      forall j | 0 <= j < |skipped| + k
        ensures !IsDeviceEntry(all[j])
      {
        if j < |skipped| {
          assert all[j] == skipped[j];
        } else {
          assert all[j] == rest[j - |skipped|];
        }
      }
  }

  /** A sysfs-like listing: ".", "..", then a device link. */
  lemma TypicalListing()
    ensures Locate(BacklightBaseDir,
                   Some([Entry(Directory, "."), Entry(Directory, ".."),
                         Entry(Symlink, "intel_backlight")]))
            == Success("/sys/class/backlight/intel_backlight")
  {
    var entries := [Entry(Directory, "."), Entry(Directory, ".."), Entry(Symlink, "intel_backlight")];
    assert !IsDeviceEntry(entries[0]) && !IsDeviceEntry(entries[1]) && IsDeviceEntry(entries[2]);
    assert FirstDevice(entries) == Some(2);
    assert PathConcat(BacklightBaseDir, "intel_backlight") == "/sys/class/backlight/intel_backlight";
  }
}

=== FILE: paths.dfy ===
/**
 Joining a directory and a name into a path (`path_concat`, and
 `path_concat2`, which is the same join applied to a copy of the directory).
 A '/' is inserted only when the directory is non-empty and does not already
 end in '/'.
 */
module Paths {

  /** True when joining onto `dir` must insert a separator. */
  predicate NeedsSeparator(dir: string) {
    |dir| > 0 && dir[|dir| - 1] != '/'
  }

  /** The separator `PathConcat` places between its two parts. */
  function Separator(dir: string): string {
    if NeedsSeparator(dir) then "/" else ""
  }

  function PathConcat(dir: string, name: string): (r: string)
    ensures |r| >= |dir| + |name|
    ensures r[..|dir|] == dir
    ensures r[|r| - |name|..] == name
    ensures |r| == |dir| + |name| + 1 <==> NeedsSeparator(dir)
    ensures |r| == |dir| + |name| + 1 ==> r[|dir|] == '/'
    ensures |r| <= |dir| + |name| + 1
  {
    dir + Separator(dir) + name
  }

  /** The part of a joined path before the name is empty or ends in '/': the
      name always starts a fresh component. */
  lemma NameStartsComponent(dir: string, name: string)
    ensures var r := PathConcat(dir, name);
            var head := r[..|r| - |name|];
            |head| == 0 || head[|head| - 1] == '/'
  {
  }

  /** Joining is associative, so building `base/dev/file` in two steps does
      not depend on how the steps are grouped. */
  lemma JoinAssociative(a: string, b: string, c: string)
    ensures PathConcat(PathConcat(a, b), c) == PathConcat(a, PathConcat(b, c))
  {
    var sa, sb := Separator(a), Separator(b);
    var ab := a + sa + b;
    if |b| > 0 {
      assert ab[|ab| - 1] == b[|b| - 1];
      assert Separator(ab) == sb;
      assert ab + sb + c == a + sa + (b + sb + c);
    } else {
      assert ab == a + sa && b + sb + c == c;
      if NeedsSeparator(a) {
        assert ab[|ab| - 1] == '/';
        assert Separator(ab) == "";
      } else {
        assert ab == a;
      }
    }
  }
}

=== FILE: wrappers.dfy ===
/** Failure-carrying datatypes shared by the backlight model. */
module Wrappers {

  /** A value that may be absent. */
  datatype Option<+T> = None | Some(value: T)

  /** Either a successful value or an error describing why the step failed. */
  datatype Result<+R, +E> = Success(value: R) | Failure(error: E)
}
